=== FILE: README.md ===
# HabitTracker core, modelled in Dafny

A habit tracker keeps a registry of habits and a ledger of daily entries,
each entry listing the habit ids completed that day. This project models
the pure logic at its centre:

- the daily ledger of the `useHabitData` hook: the lookup of a date's
  entry, the "is this habit done" query, and the toggle that the hook hands
  to `setData` (module `Ledger`, file `ledger.dfy`);
- the n-day completion series fed to the chart (module `History`,
  `history.dfy`);
- the progress chart's derived values: the four-way bar color, the
  `completed/total` bar label, and the Y-axis upper bound (module
  `ProgressChart`, `progress_chart.dfy`, with decimal formatting in
  `decimal.dfy`);
- the add-habit form as a record-to-record state machine (module
  `AddHabit`, `add_habit.dfy`, with `String.prototype.trim` in `text.dfy`);
- the shared records and the seed registry (module `Types`, `types.dfy`).

Dates are integer day numbers and "today" is a parameter of every
operation that reads the clock. Lists stay lists: `completedHabits` is a
`seq<string>`, so order and duplicates are representable.

Three points about the code are easy to miss:

- The series' `completed` is the raw length of the day's completion list
  (src/hooks/useHabitData.ts:89); it is not filtered by the registry.
  `completed > total` and a percentage above 100 are therefore reachable:
  `History.HistoryCanExceedTotal` reaches 133% from the seed state with
  four toggles of unregistered ids. On a ledger whose lists are
  duplicate-free and name registered habits only (an invariant every
  toggle of a registered habit keeps), `History.HistoryBounded` proves
  `completed <= total` and a percentage in 0..100.
- Toggling twice (src/hooks/useHabitData.ts:43-67) is not an exact
  involution. It restores the membership of every id on every date, but
  `Ledger.ToggleTwiceIdentity` shows it gives back the whole state exactly
  when today's entry exists and either does not list the id or lists it
  once, as its last element. A missing entry comes back as an empty entry,
  and an id listed elsewhere, or more than once, comes back once at the end.
- The hook defines no streaks, no `addHabit` and no `deleteHabit`, so none
  is modelled.

## Model

| member | source | states |
|---|---|---|
| `Types.DefaultHabits` | src/types/index.ts:20-24 | the seed registry is exactly development, dsa-practice, walking, in that order; ids pairwise distinct and non-empty; every name and emoji non-empty |
| `Ledger.InitialData` | src/hooks/useHabitData.ts:25-28 | the fallback state is exactly the seed registry (development, dsa-practice, walking) with an empty ledger: no entry for any date, and it satisfies the unique-date and well-formedness invariants |
| `Ledger.FindEntry` | src/hooks/useHabitData.ts:43-44 | returns the first index whose entry carries the date, or None exactly when no entry carries it |
| `Ledger.EntryFor` | src/hooks/useHabitData.ts:35-37 | the entry read for a date is the first stored one, or a synthetic entry with an empty list when none is stored |
| `Ledger.IsCompleted` | src/hooks/useHabitData.ts:76-78 | true exactly when the first entry for the date lists the id; a date without entry reads as not completed |
| `Ledger.IsCompletedUnique` | src/hooks/useHabitData.ts:35-37 | on a ledger without repeated dates, completion is membership in the entry carrying the date |
| `Ledger.RemoveAll` | src/hooks/useHabitData.ts:51 | the filtered list no longer holds the id and, as a multiset, is the original with the id's count set to zero: every other id keeps its multiplicity |
| `Ledger.Flip` | src/hooks/useHabitData.ts:50-52 | the toggled list holds the id exactly when the old one did not; a listed id loses every occurrence with every other id keeping its multiplicity; an unlisted id is appended at the end |
| `Ledger.Toggle` | src/hooks/useHabitData.ts:42-70 | registry unchanged; no entry: `{today, [id]}` appended after the untouched entries; an entry: the first one keeps its index and loses every occurrence of the id when present or gains it at the end when absent; all other entries unchanged; entries grow by at most one and only with a `today` entry |
| `Ledger.TodayAfterToggle` | src/hooks/useHabitData.ts:43-67 | after a toggle the entry read for today is the flipped list, or `[id]` when there was no entry |
| `Ledger.OtherDateAfterToggle` | src/hooks/useHabitData.ts:64-67 | after a toggle the entry read for any other date is unchanged |
| `Ledger.ToggleFlipsCompletion` | src/hooks/useHabitData.ts:50-67 | a toggle flips completion of the id on today, leaves every other id on today and every id on every other date as it was |
| `Ledger.ToggleTwiceRestoresCompletion` | src/hooks/useHabitData.ts:50-67 | toggling twice with the same arguments restores completion of every id on every date |
| `Ledger.ToggleExisting` | src/hooks/useHabitData.ts:43-66 | when today has an entry, a toggle replaces exactly the first such entry by `{today, list with the id flipped}` and leaves every other entry in place |
| `Ledger.ToggleTwiceMissing` | src/hooks/useHabitData.ts:43-67 | with no entry for today, toggling twice leaves the old entries followed by an empty `{today, []}` entry |
| `Ledger.ToggleTwiceAbsent` | src/hooks/useHabitData.ts:50-66 | when today's entry exists without the id, toggling twice restores the whole state |
| `Ledger.ToggleTwicePresent` | src/hooks/useHabitData.ts:50-66 | when today's entry holds the id, toggling twice leaves every occurrence filtered out and one copy appended at the end |
| `Ledger.ToggleTwiceEntry` | src/hooks/useHabitData.ts:50-67 | the list read for today after two toggles: unchanged when the id was absent, the filtered list plus the id at the end when present, empty when there was no entry |
| `Ledger.RemoveAllAppended` | src/hooks/useHabitData.ts:51-52 | removing an id just appended to a list without it gives the list back |
| `Ledger.RemoveAllUnfold` | src/hooks/useHabitData.ts:51 | filtering a non-empty list keeps its first id unless it is the filtered one, then filters the rest |
| `Ledger.RemoveAllConcat` | src/hooks/useHabitData.ts:51 | filtering a concatenation is the concatenation of the filtered parts, so the kept ids stay in their original order |
| `Ledger.RemoveAllSingle` | src/hooks/useHabitData.ts:51 | a one-element list is kept when it holds another id and emptied when it holds the filtered one |
| `Ledger.RemoveAllThenAppend` | src/hooks/useHabitData.ts:51-52 | filtering a listed id out and appending it once gives the list back exactly when that id was its only, last element |
| `Ledger.ToggleTwicePresentIdentity` | src/hooks/useHabitData.ts:50-66 | when today's entry lists the id, two toggles give back the whole state exactly when that was its only occurrence and the last element |
| `Ledger.ToggleTwiceIdentity` | src/hooks/useHabitData.ts:43-67 | two toggles give back the whole state exactly when today has an entry that either lacks the id or lists it once, as its last element |
| `Ledger.ToggleKeepsUniqueDates` | src/hooks/useHabitData.ts:43-67 | a ledger with no repeated date still has none after a toggle |
| `Ledger.ToggleKeepsWellFormed` | src/hooks/useHabitData.ts:50-52 | toggling a registered habit keeps every list duplicate-free and within the registry |
| `Ledger.DistinctRemoveAll` | src/hooks/useHabitData.ts:51 | filtering a duplicate-free list keeps it duplicate-free |
| `History.LastNDays` | src/hooks/useHabitData.ts:12-23 | exactly n strictly consecutive ascending days ending at today, or none when n <= 0 |
| `History.RoundPercent` | src/hooks/useHabitData.ts:95 | the percentage is within one half of 100·completed/total, halves rounded up |
| `History.StatFor` | src/hooks/useHabitData.ts:88-96 | the record of one date describes it: that date, the registry size as total, the first entry's raw list length or 0 without entry as completed, and the rounded percentage or 0 for an empty registry |
| `History.CompletionHistory` | src/hooks/useHabitData.ts:82-100 | a window of seven days unless given; one record per day of the window, in order; total is the registry size; completed is the first entry's raw list length or 0 without entry; percentage rounds 100·completed/total, or is 0 for an empty registry |
| `History.HistoryBounded` | src/hooks/useHabitData.ts:85-96 | on a well-formed ledger every record has 0 <= completed <= total and 0 <= percentage <= 100 |
| `History.HistoryCanExceedTotal` | src/hooks/useHabitData.ts:89 | four toggles of unregistered ids on the seed state give a record with 4 of 3 completed and 133% |
| `History.EmptyStateHistory` | src/hooks/useHabitData.ts:82-100 | with no habits and no entries a 7-day window still yields 7 all-zero records |
| `Decimal.NatToString` | src/components/ProgressChart/ProgressChart.tsx:29 | the decimal text of a natural is digits only, without leading zero, and reads back as the number |
| `Decimal.IntToString` | src/components/ProgressChart/ProgressChart.tsx:29 | the text of an integer is the shortest decimal text of its magnitude, after a minus sign when negative; it holds no slash and reads back as the integer |
| `ProgressChart.Fill` | src/components/ProgressChart/ProgressChart.tsx:34-37 | every bar color is drawn with a CSS hex color `#rrggbb` |
| `ProgressChart.FillInjective` | src/components/ProgressChart/ProgressChart.tsx:34-37 | the four colors are drawn with four different fills |
| `ProgressChart.CellColor` | src/components/ProgressChart/ProgressChart.tsx:33-38 | emerald exactly at 100; blue exactly for values >= 50 other than 100, above 100 included; slate-400 exactly for 0 < p < 50; slate-700 exactly for p <= 0 |
| `ProgressChart.CellFill` | src/components/ProgressChart/ProgressChart.tsx:33-38 | `getCellColor` returns `#10b981` exactly at 100, `#60a5fa` exactly for values >= 50 other than 100, `#94a3b8` exactly for 0 < p < 50, `#334155` exactly for p <= 0 |
| `ProgressChart.DisplayValue` | src/components/ProgressChart/ProgressChart.tsx:29 | the bar label has exactly one slash, placed right after the completed count's text |
| `ProgressChart.DisplayValueRoundTrip` | src/components/ProgressChart/ProgressChart.tsx:29 | the bar label parses back into its completed count and total |
| `ProgressChart.PointFor` | src/components/ProgressChart/ProgressChart.tsx:26-30 | a chart record keeps the input record and its label is exactly the decimal completed count, a slash and the decimal total, which reads back as those two numbers |
| `ProgressChart.ChartData` | src/components/ProgressChart/ProgressChart.tsx:25-31 | same length and order as the input, every record's fields unchanged, every label exactly `completed/total` in shortest decimal text and reading back as those numbers |
| `ProgressChart.YAxisMax` | src/components/ProgressChart/ProgressChart.tsx:54 | the axis bound is never zero: the first record's total when present and non-zero, else 3 |
| `ProgressChart.YAxisOfHistory` | src/components/ProgressChart/ProgressChart.tsx:54 | fed the completion series, the axis bound is the registry size, or 3 for an empty registry or window |
| `ProgressChart.HistoryColors` | src/components/ProgressChart/ProgressChart.tsx:56-58 | a day with every habit done is emerald and a day with nothing done is slate-700; on a well-formed ledger with fewer than 200 habits emerald means every habit done |
| `ProgressChart.OneMissingCanRoundToFull` | src/components/ProgressChart/ProgressChart.tsx:34 | 199 of 200 rounds to 100 and is drawn emerald |
| `Text.Trim` | src/components/AddHabit/AddHabit.tsx:16-17 | the trimmed name is a slice of the name with only white space cut from either end and none left at either end; empty exactly when the name is all white space |
| `Text.TrimIdempotent` | src/components/AddHabit/AddHabit.tsx:17 | trimming a trimmed name changes nothing |
| `AddHabit.Initial` | src/components/AddHabit/AddHabit.tsx:10-12 | a fresh form is closed, with an empty name and the books emoji, which is one of the offered emojis |
| `AddHabit.Open` | src/components/AddHabit/AddHabit.tsx:27 | opening shows the form and keeps name and emoji |
| `AddHabit.Cancel` | src/components/AddHabit/AddHabit.tsx:80 | cancel closes the form without clearing name or emoji |
| `AddHabit.EditName` | src/components/AddHabit/AddHabit.tsx:48 | typing replaces the name and nothing else |
| `AddHabit.SelectEmoji` | src/components/AddHabit/AddHabit.tsx:60-64 | picking an offered emoji selects it and leaves the form offering-valid |
| `AddHabit.SubmitDisabled` | src/components/AddHabit/AddHabit.tsx:88 | the submit button is disabled exactly when the name is all white space |
| `AddHabit.Submit` | src/components/AddHabit/AddHabit.tsx:14-22 | an all-white-space name changes nothing and calls nothing; otherwise `onAdd` is called once with the trimmed, non-empty name and the selected emoji, and the form resets to closed, empty, books |
| `AddHabit.DisabledMatchesGuard` | src/components/AddHabit/AddHabit.tsx:88 | the disabled button and the submit guard agree: submit calls `onAdd` exactly when the button is enabled |
| `AddHabit.Step` | src/components/AddHabit/AddHabit.tsx:14-88 | on a closed form only "Add New Habit" acts, and it opens the form; on the open form cancel, typing, picking and submit are `Cancel`, `EditName`, `SelectEmoji` and `Submit`, and opening does nothing; an `onAdd` call comes only from a submit on the open form |
| `AddHabit.Run` | src/components/AddHabit/AddHabit.tsx:7-42 | over any sequence of actions the selected emoji stays an offered one, and every `onAdd` call carries a non-empty trimmed name and an offered emoji; a closed form that is never opened stays as it is and calls nothing |
| `AddHabit.SubmitRead` | src/components/AddHabit/AddHabit.tsx:14-22 | submitting the open form with the name "Read" and the books calls `onAdd("Read", books)` and resets the form |
| `AddHabit.OpenTypeSubmit` | src/components/AddHabit/AddHabit.tsx:14-27 | opening the form, typing "Read" and submitting calls `onAdd("Read", books)` once and leaves a fresh closed form |

## Left out

- `src/hooks/useLocalStorage.ts`: the browser storage, JSON parsing and
  cross-tab events are I/O; `setData` is modelled as applying the pure
  updater to the current state.
- Date strings: `getTodayDate` and the ISO/UTC formatting of
  `getLastNDays` become integer day numbers with "today" passed in; no
  calendar or time-zone conversion is modelled.
- The chart's weekday label (`toLocaleDateString`) is locale formatting and
  is not modelled; `ChartPoint` holds the input record and the label only.
- `Math.round` on floating point is idealised as exact rational rounding
  with halves rounded up; floating-point error in `completed / total * 100`
  is not modelled.
- Template-literal formatting of numbers is modelled for integers only;
  fractional values and the exponent form of very large numbers are not.
- Streaks, `addHabit` and `deleteHabit`: `src/App.tsx` expects them from
  the hook, but the hook does not define them, so there is no algorithm to
  model. The same holds for filtering completed ids by the registry.
- Rendering and wiring (`Header`, `StreakCounter`, `HabitItem`,
  `HabitList`, `App`, recharts, React memoisation, markup). `App.tsx`
  passes the chart a `getCompletionHistory` prop while the chart reads a
  `data` prop; the model connects the two directly.
- `handleSubmit`'s `preventDefault` is a browser event effect; the `onAdd`
  call is modelled as the output of `AddHabit.Submit`.
- Window lengths are whole numbers: a fractional `days` (which no caller
  passes) would run the date loop over fractional offsets, which integer day
  numbers cannot express.
- Actions the component does not render in its current state (typing,
  picking, cancel or submit on the closed form; the open button on the open
  form) cannot happen in the browser; `AddHabit.Step` models them as doing
  nothing.
- Ledger.RemoveAll: its own contract states contents and multiplicities;
  the order of the kept ids is stated separately, by `Ledger.RemoveAllConcat`
  with `Ledger.RemoveAllSingle`.
- Ledger.Flip: when the id was listed, its contract states the remaining
  ids by multiplicity; their order follows from the `RemoveAll` lemmas.
- Ledger.Toggle: when the id was present, its contract states the remaining
  ids by multiplicity; `Ledger.ToggleExisting` gives the exact list as
  `Flip`, whose order follows from the `RemoveAll` lemmas.

=== FILE: add_habit.dfy ===
/** The add-habit form as a record-to-record state machine: open, cancel,
    typing a name, picking an emoji, and submitting. A submit that goes
    through yields the `onAdd` call it makes as an output. */
module AddHabit {
  import opened Wrappers
  import Text

  /** The emojis the form offers, in display order (the writing hand is two
      code points, the hand and a variation selector). */
  const EmojiOptions: seq<string> := [
    "\U{1F4DA}", "\U{1F3C3}", "\U{1F4AA}", "\U{1F9D8}", "\U{1F4A7}", "\U{1F34E}",
    "\U{1F634}", "\U{270D}\U{FE0F}", "\U{1F3AF}", "\U{1F9F9}", "\U{1F4B0}", "\U{1F4F1}"
  ]

  /** The emoji a fresh form starts with: the books. */
  const DefaultEmoji: string := "\U{1F4DA}"

  datatype FormState = FormState(isOpen: bool, name: string, emoji: string)

  /** The arguments of one `onAdd(name, emoji)` call. */
  datatype AddRequest = AddRequest(name: string, emoji: string)

  /** The state after a submit, and the `onAdd` call made, if any. */
  datatype SubmitResult = SubmitResult(next: FormState, call: Option<AddRequest>)

  /** The selected emoji is one the form offers. */
  predicate Valid(s: FormState)
  {
    s.emoji in EmojiOptions
  }

  /** A fresh form: closed, with an empty name and the books selected, which
      is one of the offered emojis. */
  function Initial(): (s: FormState)
    ensures !s.isOpen && s.name == "" && s.emoji == DefaultEmoji
    ensures Valid(s)
  {
    FormState(false, "", DefaultEmoji)
  }

  /** The "Add New Habit" button: opens the form and keeps what was typed. */
  function Open(s: FormState): (t: FormState)
    ensures t.isOpen && t.name == s.name && t.emoji == s.emoji
  {
    s.(isOpen := true)
  }

  /** Cancel closes the form without clearing the name or the emoji. */
  function Cancel(s: FormState): (t: FormState)
    ensures !t.isOpen && t.name == s.name && t.emoji == s.emoji
  {
    s.(isOpen := false)
  }

  /** Typing replaces the name with the input's text. */
  function EditName(s: FormState, text: string): (t: FormState)
    ensures t.name == text && t.isOpen == s.isOpen && t.emoji == s.emoji
  {
    s.(name := text)
  }

  /** Picking one of the offered emojis selects it. */
  function SelectEmoji(s: FormState, option: string): (t: FormState)
    requires option in EmojiOptions
    ensures Valid(t) && t.emoji == option
    ensures t.isOpen == s.isOpen && t.name == s.name
  {
    s.(emoji := option)
  }

  /** The submit button is disabled while the trimmed name is empty. */
  function SubmitDisabled(s: FormState): (disabled: bool)
    ensures disabled <==> Text.AllWhitespace(s.name)
  {
    |Text.Trim(s.name)| == 0
  }

  /** Submit. A name that is all white space changes nothing and calls
      nothing. Otherwise `onAdd` is called once, with the trimmed name and
      the selected emoji, and the form is reset to closed, empty and the
      books. */
  function Submit(s: FormState): (r: SubmitResult)
    ensures Text.AllWhitespace(s.name) ==> r.next == s && r.call == None
    ensures !Text.AllWhitespace(s.name) ==>
              && r.call == Some(AddRequest(Text.Trim(s.name), s.emoji))
              && !r.next.isOpen && r.next.name == "" && r.next.emoji == DefaultEmoji
    ensures r.call.Some? ==> r.call.value.name != "" && Text.IsTrimmed(r.call.value.name)
  {
    var trimmed := Text.Trim(s.name);
    if |trimmed| > 0 then SubmitResult(Initial(), Some(AddRequest(trimmed, s.emoji)))
    else SubmitResult(s, None)
  }

  /** The disabled button and the submit guard agree: submit calls `onAdd`
      exactly when the button is enabled. */
  lemma DisabledMatchesGuard(s: FormState)
    ensures SubmitDisabled(s) <==> Submit(s).call.None?
    ensures SubmitDisabled(s) ==> Submit(s).next == s
  {
  }

  /** The user actions on the form. */
  datatype Event = OpenForm | CancelForm | Type(text: string) | Pick(option: string) | SubmitForm

  /** Every picked emoji is one the form offers. */
  predicate PicksOffered(events: seq<Event>)
  {
    forall k :: 0 <= k < |events| && events[k].Pick? ==> events[k].option in EmojiOptions
  }

  /** One action: the next state, and the `onAdd` call it makes, if any. A
      closed form shows only the "Add New Habit" button, so there every action
      but opening does nothing; an open form no longer shows that button, so
      there opening does nothing. Only a submit on the open form can call
      `onAdd`. */
  function Step(s: FormState, e: Event): (r: SubmitResult)
    requires e.Pick? ==> e.option in EmojiOptions
    ensures !s.isOpen && !e.OpenForm? ==> r == SubmitResult(s, None)
    ensures !s.isOpen && e.OpenForm? ==> r == SubmitResult(Open(s), None)
    ensures s.isOpen && e.OpenForm? ==> r == SubmitResult(s, None)
    ensures s.isOpen && e.CancelForm? ==> r == SubmitResult(Cancel(s), None)
    ensures s.isOpen && e.Type? ==> r == SubmitResult(EditName(s, e.text), None)
    ensures s.isOpen && e.Pick? ==> r == SubmitResult(SelectEmoji(s, e.option), None)
    ensures s.isOpen && e.SubmitForm? ==> r == Submit(s)
    ensures r.call.Some? ==> s.isOpen && e.SubmitForm?
  {
    if !s.isOpen then
      if e.OpenForm? then SubmitResult(Open(s), None) else SubmitResult(s, None)
    else
      match e
      case OpenForm => SubmitResult(s, None)
      case CancelForm => SubmitResult(Cancel(s), None)
      case Type(text) => SubmitResult(EditName(s, text), None)
      case Pick(option) => SubmitResult(SelectEmoji(s, option), None)
      case SubmitForm => Submit(s)
  }

  /** No action opens the form. */
  predicate NeverOpens(events: seq<Event>)
  {
    forall k :: 0 <= k < |events| ==> !events[k].OpenForm?
  }

  /** Runs the actions in order from `s`, collecting the `onAdd` calls. From
      a state with an offered emoji the form always keeps an offered emoji,
      and every call carries a non-empty trimmed name and an offered emoji.
      A closed form that is never opened stays as it is and calls nothing. */
  function Run(s: FormState, events: seq<Event>): (r: (FormState, seq<AddRequest>))
    requires PicksOffered(events)
    requires Valid(s)
    ensures Valid(r.0)
    ensures |r.1| <= |events|
    ensures forall c :: c in r.1 ==>
              c.name != "" && Text.IsTrimmed(c.name) && c.emoji in EmojiOptions
    ensures !s.isOpen && NeverOpens(events) ==> r == (s, [])
    decreases |events|
  {
    if |events| == 0 then (s, [])
    else
      var step := Step(s, events[0]);
      assert PicksOffered(events[1..]) by {
        forall k | 0 <= k < |events[1..]| && events[1..][k].Pick?
          ensures events[1..][k].option in EmojiOptions
        {
          assert events[1..][k] == events[k + 1];
        }
      }
      assert NeverOpens(events) ==> NeverOpens(events[1..]) by {
        if NeverOpens(events) {
          forall k | 0 <= k < |events[1..]| ensures !events[1..][k].OpenForm? {
            assert events[1..][k] == events[k + 1];
          }
        }
      }
      var rest := Run(step.next, events[1..]);
      var calls := if step.call.Some? then [step.call.value] + rest.1 else rest.1;
      (rest.0, calls)
  }

  /** Submitting the open form with the name "Read" calls `onAdd("Read",
      books)` and resets the form. */
  lemma SubmitRead(s: FormState)
    requires s.isOpen && s.name == "Read" && s.emoji == DefaultEmoji
    ensures Submit(s) == SubmitResult(Initial(), Some(AddRequest("Read", DefaultEmoji)))
  {
    assert Text.IsTrimmed("Read");
    Text.TrimIdempotent("Read");
  }

  /** Opening the form, typing a name and submitting makes exactly one call,
      and leaves a fresh closed form. */
  lemma OpenTypeSubmit()
    ensures Run(Initial(), [OpenForm, Type("Read"), SubmitForm]) ==
            (Initial(), [AddRequest("Read", DefaultEmoji)])
  {
    var events := [OpenForm, Type("Read"), SubmitForm];
    var shown := Open(Initial());
    var typed := EditName(shown, "Read");
    SubmitRead(typed);
    assert events[1..] == [Type("Read"), SubmitForm];
    assert events[1..][1..] == [SubmitForm];
    assert Run(typed, [SubmitForm]) == (Initial(), [AddRequest("Read", DefaultEmoji)]) by {
      assert [SubmitForm][1..] == [];
      assert Run(Initial(), []) == (Initial(), []);
      assert [AddRequest("Read", DefaultEmoji)] + [] == [AddRequest("Read", DefaultEmoji)];
    }
  }
}

=== FILE: decimal.dfy ===
/** Decimal text of integers, as a template literal renders an integral
    number, and the parser that reads it back. */
module Decimal {
  import opened Wrappers

  predicate IsDigit(ch: char)
  {
    '0' <= ch <= '9'
  }

  predicate AllDigits(s: string)
  {
    forall k :: 0 <= k < |s| ==> IsDigit(s[k])
  }

  function DigitChar(d: int): (ch: char)
    requires 0 <= d < 10
    ensures IsDigit(ch) && ch as int - '0' as int == d
  {
    (d + '0' as int) as char
  }

  /** The value of a string of digits, most significant first. */
  function ParseNat(s: string): (n: nat)
    requires AllDigits(s)
  {
    if |s| == 0 then 0
    else 10 * ParseNat(s[..|s| - 1]) + (s[|s| - 1] as int - '0' as int)
  }

  /** The shortest decimal text of `n`: digits only, no leading zero, and
      read back by `ParseNat` as `n`. */
  function NatToString(n: nat): (s: string)
    ensures |s| >= 1 && AllDigits(s)
    ensures |s| > 1 ==> s[0] != '0'
    ensures ParseNat(s) == n
  {
    if n < 10 then [DigitChar(n)]
    else
      var prefix := NatToString(n / 10);
      var s := prefix + [DigitChar(n % 10)];
      assert s[..|s| - 1] == prefix;
      s
  }

  /** The text of an integer: the shortest decimal text of its magnitude,
      after a minus sign when negative. */
  function IntToString(i: int): (s: string)
    ensures i >= 0 ==> s == NatToString(i)
    ensures i < 0 ==> s == "-" + NatToString(-i)
    ensures '/' !in s
    ensures ParseInt(s) == Some(i)
  {
    if i < 0 then "-" + NatToString(-i) else NatToString(i)
  }

  /** Reads an optionally signed run of digits; anything else is None. */
  function ParseInt(s: string): (r: Option<int>)
    ensures r.Some? ==> |s| >= 1
  {
    if |s| >= 2 && s[0] == '-' && AllDigits(s[1..]) then Some(0 - ParseNat(s[1..]))
    else if |s| >= 1 && AllDigits(s) then Some(ParseNat(s))
    else None
  }
}

=== FILE: history.dfy ===
/** The n-day completion series of the habit hook, with dates as day numbers
    and "today" as a parameter. */
module History {
  import opened Wrappers
  import opened Types
  import Ledger

  /** One bar of the series. The fields are integers because the chart
      accepts any numbers; the series itself only produces non-negative ones. */
  datatype DayStat = DayStat(date: Day, completed: int, total: int, percentage: int)

  /** The last `n` days ending at `today`: exactly `n` strictly consecutive
      ascending days, or none when `n <= 0`. */
  function LastNDays(today: Day, n: int): (days: seq<Day>)
    ensures |days| == if n <= 0 then 0 else n
    ensures forall k :: 0 <= k < |days| ==> days[k] == today - |days| + 1 + k
    decreases n
  {
    if n <= 0 then [] else LastNDays(today - 1, n - 1) + [today]
  }

  /** `Math.round(100 * completed / total)` taken over exact rationals:
      the result is within one half of the true ratio, halves rounded up. */
  function RoundPercent(completed: int, total: int): (p: int)
    requires total > 0
    ensures total * (2 * p - 1) <= 200 * completed < total * (2 * p + 1)
  {
    var q := (200 * completed + total) / (2 * total);
    var rem := (200 * completed + total) % (2 * total);
    assert 200 * completed + total == 2 * total * q + rem;
    assert total * (2 * q - 1) == 2 * total * q - total;
    assert total * (2 * q + 1) == 2 * total * q + total;
    q
  }

  /** The series record for one date. `completed` is the raw length of the
      date's completion list: it is not filtered by the registry. */
  function StatFor(data: HabitData, date: Day): (s: DayStat)
    ensures DescribesDay(data, date, s)
  {
    var completed :=
      match Ledger.FindEntry(data.entries, date)
      case Some(i) => |data.entries[i].completedHabits|
      case None => 0;
    var total := |data.habits|;
    var s := DayStat(date, completed, total, if total > 0 then RoundPercent(completed, total) else 0);
    assert DescribesDay(data, date, s) by {
      forall i | Ledger.FirstAt(data.entries, date, i)
        ensures s.completed == |data.entries[i].completedHabits|
      {
        var found := Ledger.FindEntry(data.entries, date);
        Ledger.FirstAtUnique(data.entries, date, i, found.value);
      }
    }
    s
  }

  /** What one record of the series says about its date. */
  predicate DescribesDay(data: HabitData, date: Day, s: DayStat)
  {
    && s.date == date
    && s.total == |data.habits|
    && (!Ledger.HasEntry(data.entries, date) ==> s.completed == 0)
    && (forall i :: 0 <= i < |data.entries| && Ledger.FirstAt(data.entries, date, i) ==>
          s.completed == |data.entries[i].completedHabits|)
    && (s.total > 0 ==> s.total * (2 * s.percentage - 1) <= 200 * s.completed < s.total * (2 * s.percentage + 1))
    && (s.total == 0 ==> s.percentage == 0)
  }

  /** The completion series for the `days` days ending at `today`, one record
      per day, oldest first; the window is seven days unless given. */
  function CompletionHistory(data: HabitData, today: Day, days: int := 7): (r: seq<DayStat>)
    ensures |r| == |LastNDays(today, days)|
    ensures forall k :: 0 <= k < |r| ==> DescribesDay(data, LastNDays(today, days)[k], r[k])
  {
    var dates := LastNDays(today, days);
    seq(|dates|, k requires 0 <= k < |dates| => StatFor(data, dates[k]))
  }

  /** The set of the elements of a list. */
  function Elements(s: seq<HabitId>): set<HabitId>
  {
    set x | x in s
  }

  lemma {:induction false} ElementsBound(s: seq<HabitId>)
    ensures |Elements(s)| <= |s|
    ensures Distinct(s) ==> |Elements(s)| == |s|
  {
    if |s| > 0 {
      ElementsBound(s[1..]);
      assert Elements(s) == {s[0]} + Elements(s[1..]);
      if Distinct(s) {
        assert Distinct(s[1..]);
        assert s[0] !in Elements(s[1..]);
      }
    }
  }

  /** A duplicate-free list of registered ids is no longer than the registry. */
  lemma CompletedWithinRegistry(ids: seq<HabitId>, registry: seq<HabitId>)
    requires Distinct(ids)
    requires forall x :: x in ids ==> x in registry
    ensures |ids| <= |registry|
  {
    ElementsBound(ids);
    ElementsBound(registry);
    assert Elements(ids) <= Elements(registry);
    assert |Elements(ids)| <= |Elements(registry)| by {
      SubsetCard(Elements(ids), Elements(registry));
    }
  }

  lemma SubsetCard(a: set<HabitId>, b: set<HabitId>)
    requires a <= b
    ensures |a| <= |b|
  {
    assert b == a + (b - a);
  }

  /** On a well-formed ledger every record has `0 <= completed <= total`
      and a percentage between 0 and 100. */
  lemma HistoryBounded(data: HabitData, today: Day, days: int)
    requires Ledger.WellFormed(data)
    ensures forall s :: s in CompletionHistory(data, today, days) ==>
              0 <= s.completed <= s.total && 0 <= s.percentage <= 100
  {
    var r := CompletionHistory(data, today, days);
    forall k | 0 <= k < |r|
      ensures 0 <= r[k].completed <= r[k].total && 0 <= r[k].percentage <= 100
    {
      var date := LastNDays(today, days)[k];
      if Ledger.HasEntry(data.entries, date) {
        var i := Ledger.FindEntry(data.entries, date).value;
        CompletedWithinRegistry(data.entries[i].completedHabits, HabitIds(data.habits));
      }
      if r[k].total > 0 {
        PercentBounded(r[k].completed, r[k].total, r[k].percentage);
      }
    }
  }

  lemma PercentBounded(c: int, t: int, p: int)
    requires 0 <= c <= t && t > 0
    requires t * (2 * p - 1) <= 200 * c < t * (2 * p + 1)
    ensures 0 <= p <= 100
  {
    FactorLess(t, 0, 2 * p + 1);
    FactorLess(t, 2 * p - 1, 201);
  }

  /** For a positive factor `t`, `t * a < t * b` implies `a < b`. */
  lemma FactorLess(t: int, a: int, b: int)
    requires t > 0 && t * a < t * b
    ensures a < b
  {
  }

  /** Because `completed` is not filtered by the registry, the hook's own
      toggle can push a record above 100%: four unregistered ids toggled on
      the seed state give 4 of 3 habits, shown as 133%. */
  lemma HistoryCanExceedTotal(today: Day)
    ensures var data := Ledger.Toggle(Ledger.Toggle(Ledger.Toggle(Ledger.Toggle(
                          Ledger.InitialData(), today, "a"), today, "b"), today, "c"), today, "d");
            var s := CompletionHistory(data, today, 1)[0];
            s.completed == 4 && s.total == 3 && s.percentage == 133
  {
  }

  /** The rounding bounds pin the percentage down to one value. */
  lemma PercentIs(c: int, t: int, p: int, q: int)
    requires t > 0
    requires t * (2 * p - 1) <= 200 * c < t * (2 * p + 1)
    requires t * (2 * q - 1) <= 200 * c < t * (2 * q + 1)
    ensures p == q
  {
    FactorLess(t, 2 * p - 1, 2 * q + 1);
    FactorLess(t, 2 * q - 1, 2 * p + 1);
  }

  /** With an empty registry and an empty ledger the series still has one
      record per requested day, all zero. */
  lemma EmptyStateHistory(today: Day)
    ensures var r := CompletionHistory(HabitData([], []), today, 7);
            |r| == 7 && forall s :: s in r ==> s.completed == 0 && s.total == 0 && s.percentage == 0
  {
  }
}

=== FILE: ledger.dfy ===
/** The daily ledger of the habit hook: lookup of a date's entry, the
    membership query, and the toggle that updates the persisted state. */
module Ledger {
  import opened Wrappers
  import opened Types

  /** Some entry of the ledger carries `date`. */
  predicate HasEntry(entries: seq<DailyEntry>, date: Day)
  {
    exists k :: 0 <= k < |entries| && entries[k].date == date
  }

  /** `k` is the first index of the ledger whose entry carries `date`. */
  predicate FirstAt(entries: seq<DailyEntry>, date: Day, k: int)
  {
    && 0 <= k < |entries|
    && entries[k].date == date
    && forall j :: 0 <= j < k ==> entries[j].date != date
  }

  /** No date occurs twice in the ledger. */
  predicate UniqueDates(entries: seq<DailyEntry>)
  {
    forall i, j :: 0 <= i < j < |entries| ==> entries[i].date != entries[j].date
  }

  /** The entry's list is duplicate-free and names ids of `registry` only. */
  predicate EntryWithin(e: DailyEntry, registry: seq<HabitId>)
  {
    && Distinct(e.completedHabits)
    && forall x :: x in e.completedHabits ==> x in registry
  }

  /** Every completion list is duplicate-free and names registered habits only. */
  predicate WellFormed(data: HabitData)
  {
    forall k :: 0 <= k < |data.entries| ==> EntryWithin(data.entries[k], HabitIds(data.habits))
  }

  /** The state used when nothing is persisted: the seed registry and an
      empty ledger. */
  function InitialData(): (data: HabitData)
    ensures data.habits == DefaultHabits() && data.entries == []
    ensures HabitIds(data.habits) == ["development", "dsa-practice", "walking"]
    ensures |data.habits| == 3 && Distinct(HabitIds(data.habits))
    ensures forall date :: !HasEntry(data.entries, date)
    ensures UniqueDates(data.entries) && WellFormed(data)
  {
    HabitData(DefaultHabits(), [])
  }

  /** The index of the first entry for `date`, like `findIndex`; None for -1. */
  function FindEntry(entries: seq<DailyEntry>, date: Day): (r: Option<nat>)
    ensures r.Some? ==> FirstAt(entries, date, r.value)
    ensures r.None? ==> !HasEntry(entries, date)
  {
    if |entries| == 0 then None
    else if entries[0].date == date then Some(0)
    else match FindEntry(entries[1..], date)
      case None => None
      case Some(k) => Some(k + 1)
  }

  lemma FirstAtUnique(entries: seq<DailyEntry>, date: Day, i: int, j: int)
    requires FirstAt(entries, date, i) && FirstAt(entries, date, j)
    ensures i == j
  {
  }

  /** The entry read for `date`: the first stored one, or a synthetic empty
      entry when the ledger has none. */
  function EntryFor(entries: seq<DailyEntry>, date: Day): (e: DailyEntry)
    ensures e.date == date
    ensures !HasEntry(entries, date) ==> e.completedHabits == []
    ensures forall k :: FirstAt(entries, date, k) ==> e == entries[k]
  {
    match FindEntry(entries, date)
    case None => DailyEntry(date, [])
    case Some(k) =>
      assert forall i :: FirstAt(entries, date, i) ==> i == k by {
        forall i | FirstAt(entries, date, i) {
          FirstAtUnique(entries, date, i, k);
        }
      }
      entries[k]
  }

  /** Whether `habitId` is recorded as done on `date`. */
  function IsCompleted(data: HabitData, date: Day, habitId: HabitId): (done: bool)
    ensures done <==> exists k :: FirstAt(data.entries, date, k) && habitId in data.entries[k].completedHabits
  {
    habitId in EntryFor(data.entries, date).completedHabits
  }

  /** On a ledger without repeated dates, completion is plain membership in
      the entry carrying the date. */
  lemma IsCompletedUnique(data: HabitData, date: Day, habitId: HabitId)
    requires UniqueDates(data.entries)
    ensures IsCompleted(data, date, habitId) <==>
            exists k :: 0 <= k < |data.entries| && data.entries[k].date == date
                        && habitId in data.entries[k].completedHabits
  {
  }

  /** The list with every occurrence of `habitId` dropped, order kept. */
  function RemoveAll(ids: seq<HabitId>, habitId: HabitId): (r: seq<HabitId>)
    ensures habitId !in r
    ensures multiset(r) == multiset(ids)[habitId := 0]
  {
    if |ids| == 0 then []
    else
      assert ids == [ids[0]] + ids[1..];
      (if ids[0] == habitId then [] else [ids[0]]) + RemoveAll(ids[1..], habitId)
  }

  /** The completion list after a toggle of `habitId` on an existing entry:
      a listed id loses every occurrence, an unlisted one is appended. */
  function Flip(ids: seq<HabitId>, habitId: HabitId): (r: seq<HabitId>)
    ensures habitId in r <==> habitId !in ids
    ensures habitId in ids ==> multiset(r) == multiset(ids)[habitId := 0]
    ensures habitId !in ids ==> r == ids + [habitId]
  {
    if habitId in ids then RemoveAll(ids, habitId) else ids + [habitId]
  }

  /** Toggles `habitId` for the date `today`. A missing entry is appended as
      `{today, [habitId]}`; otherwise the first entry for `today` keeps its
      place and has every occurrence of `habitId` removed when present, or
      `habitId` appended when absent. The registry is never touched. */
  function Toggle(data: HabitData, today: Day, habitId: HabitId): (r: HabitData)
    ensures r.habits == data.habits
    ensures |data.entries| <= |r.entries| <= |data.entries| + 1
    ensures !HasEntry(data.entries, today) ==>
              r.entries == data.entries + [DailyEntry(today, [habitId])]
    ensures forall i :: FirstAt(data.entries, today, i) ==>
              && |r.entries| == |data.entries|
              && r.entries[i].date == today
              && (habitId in data.entries[i].completedHabits ==>
                    && habitId !in r.entries[i].completedHabits
                    && multiset(r.entries[i].completedHabits) == multiset(data.entries[i].completedHabits)[habitId := 0])
              && (habitId !in data.entries[i].completedHabits ==>
                    r.entries[i].completedHabits == data.entries[i].completedHabits + [habitId])
              && forall k :: 0 <= k < |data.entries| && k != i ==> r.entries[k] == data.entries[k]
    ensures forall k :: 0 <= k < |data.entries| && data.entries[k].date != today ==>
              r.entries[k] == data.entries[k]
    ensures forall k :: |data.entries| <= k < |r.entries| ==> r.entries[k].date == today
  {
    var existing := FindEntry(data.entries, today);
    var updated :=
      match existing
      case Some(i) => Flip(data.entries[i].completedHabits, habitId)
      case None => [habitId];
    var entry := DailyEntry(today, updated);
    var entries :=
      match existing
      case Some(i) => data.entries[i := entry]
      case None => data.entries + [entry];
    assert existing.Some? ==> forall i :: FirstAt(data.entries, today, i) ==> i == existing.value by {
      if existing.Some? {
        forall i | FirstAt(data.entries, today, i) {
          FirstAtUnique(data.entries, today, i, existing.value);
        }
      }
    }
    data.(entries := entries)
  }

  /** After a toggle, the entry read for `today` holds the flipped list, or
      `[habitId]` when there was no entry. */
  lemma TodayAfterToggle(data: HabitData, today: Day, habitId: HabitId)
    ensures var before := EntryFor(data.entries, today).completedHabits;
            var after := EntryFor(Toggle(data, today, habitId).entries, today).completedHabits;
            if HasEntry(data.entries, today) then after == Flip(before, habitId) else after == [habitId]
  {
    var r := Toggle(data, today, habitId);
    match FindEntry(data.entries, today)
    case Some(i) =>
      ToggleExisting(data, today, habitId, i);
      assert FirstAt(r.entries, today, i);
    case None =>
      assert FirstAt(r.entries, today, |data.entries|);
  }

  /** After a toggle, the entry read for any other date is unchanged. */
  lemma OtherDateAfterToggle(data: HabitData, today: Day, habitId: HabitId, date: Day)
    requires date != today
    ensures EntryFor(Toggle(data, today, habitId).entries, date) == EntryFor(data.entries, date)
  {
    var r := Toggle(data, today, habitId);
    assert forall k :: 0 <= k < |r.entries| && r.entries[k].date == date ==>
                       k < |data.entries| && r.entries[k] == data.entries[k];
    match FindEntry(data.entries, date)
    case Some(k) =>
      assert FirstAt(r.entries, date, k);
    case None =>
      assert !HasEntry(r.entries, date);
  }

  /** A toggle flips the completion of `habitId` on `today`, leaves every
      other id on `today` as it was, and leaves every other date alone.
      A date without an entry reads as "not completed". */
  lemma {:induction false} ToggleFlipsCompletion(data: HabitData, today: Day, habitId: HabitId, other: HabitId, date: Day)
    ensures IsCompleted(Toggle(data, today, habitId), today, habitId) == !IsCompleted(data, today, habitId)
    ensures other != habitId ==>
              IsCompleted(Toggle(data, today, habitId), today, other) == IsCompleted(data, today, other)
    ensures date != today ==>
              IsCompleted(Toggle(data, today, habitId), date, other) == IsCompleted(data, date, other)
  {
    TodayAfterToggle(data, today, habitId);
    if date != today {
      OtherDateAfterToggle(data, today, habitId, date);
    }
    var before := EntryFor(data.entries, today).completedHabits;
    if HasEntry(data.entries, today) && habitId in before {
      var after := RemoveAll(before, habitId);
      if other != habitId {
        assert other in after <==> multiset(after)[other] > 0;
        assert other in before <==> multiset(before)[other] > 0;
      }
    }
  }

  /** Toggling twice with the same arguments restores the completion of
      every id on every date. */
  lemma ToggleTwiceRestoresCompletion(data: HabitData, today: Day, habitId: HabitId, other: HabitId, date: Day)
    ensures IsCompleted(Toggle(Toggle(data, today, habitId), today, habitId), date, other)
            == IsCompleted(data, date, other)
  {
    var once := Toggle(data, today, habitId);
    ToggleFlipsCompletion(data, today, habitId, other, date);
    ToggleFlipsCompletion(once, today, habitId, other, date);
  }

  /** The toggle as an equation, when an entry for `today` exists. */
  lemma ToggleExisting(data: HabitData, today: Day, habitId: HabitId, i: int)
    requires FirstAt(data.entries, today, i)
    ensures Toggle(data, today, habitId).entries ==
            data.entries[i := DailyEntry(today, Flip(data.entries[i].completedHabits, habitId))]
  {
    FirstAtUnique(data.entries, today, i, FindEntry(data.entries, today).value);
  }

  /** Toggling twice on a date without entry leaves an empty entry behind. */
  lemma ToggleTwiceMissing(data: HabitData, today: Day, habitId: HabitId)
    requires !HasEntry(data.entries, today)
    ensures Toggle(Toggle(data, today, habitId), today, habitId).entries ==
            data.entries + [DailyEntry(today, [])]
  {
    var once := Toggle(data, today, habitId);
    assert FirstAt(once.entries, today, |data.entries|);
    ToggleExisting(once, today, habitId, |data.entries|);
    assert RemoveAll([habitId], habitId) == [] + RemoveAll([habitId][1..], habitId);
  }

  /** Toggling twice an id the entry does not list gives the state back. */
  lemma ToggleTwiceAbsent(data: HabitData, today: Day, habitId: HabitId, i: int)
    requires FirstAt(data.entries, today, i)
    requires habitId !in data.entries[i].completedHabits
    ensures Toggle(Toggle(data, today, habitId), today, habitId) == data
  {
    var once := Toggle(data, today, habitId);
    ToggleExisting(data, today, habitId, i);
    assert FirstAt(once.entries, today, i);
    ToggleExisting(once, today, habitId, i);
    RemoveAllAppended(data.entries[i].completedHabits, habitId);
  }

  /** Toggling twice an id the entry lists moves it to the end of the list. */
  lemma ToggleTwicePresent(data: HabitData, today: Day, habitId: HabitId, i: int)
    requires FirstAt(data.entries, today, i)
    requires habitId in data.entries[i].completedHabits
    ensures Toggle(Toggle(data, today, habitId), today, habitId).entries ==
            data.entries[i := DailyEntry(today, RemoveAll(data.entries[i].completedHabits, habitId) + [habitId])]
  {
    var once := Toggle(data, today, habitId);
    ToggleExisting(data, today, habitId, i);
    assert FirstAt(once.entries, today, i);
    ToggleExisting(once, today, habitId, i);
  }

  /** Today's list after two toggles. A missing entry comes back as an empty
      one, a list without `habitId` comes back as it was, and a list holding
      it comes back filtered with one `habitId` at the end, which is the old
      list exactly when its only occurrence was the last element. */
  lemma ToggleTwiceEntry(data: HabitData, today: Day, habitId: HabitId)
    ensures var before := EntryFor(data.entries, today).completedHabits;
            var after := EntryFor(Toggle(Toggle(data, today, habitId), today, habitId).entries, today).completedHabits;
            && (!HasEntry(data.entries, today) ==> after == [])
            && (HasEntry(data.entries, today) && habitId !in before ==> after == before)
            && (HasEntry(data.entries, today) && habitId in before ==> after == RemoveAll(before, habitId) + [habitId])
  {
    var twice := Toggle(Toggle(data, today, habitId), today, habitId);
    match FindEntry(data.entries, today)
    case None =>
      ToggleTwiceMissing(data, today, habitId);
      assert FirstAt(twice.entries, today, |data.entries|);
    case Some(i) =>
      if habitId in data.entries[i].completedHabits {
        ToggleTwicePresent(data, today, habitId, i);
      } else {
        ToggleTwiceAbsent(data, today, habitId, i);
      }
      assert FirstAt(twice.entries, today, i);
  }

  /** `habitId` occurs in `ids` once, as the last element. */
  predicate EndsWithOnly(ids: seq<HabitId>, habitId: HabitId)
  {
    |ids| > 0 && ids[|ids| - 1] == habitId && habitId !in ids[..|ids| - 1]
  }

  /** Filtering a listed id out and appending it once gives the list back
      exactly when that id was its only, last element. */
  lemma RemoveAllThenAppend(ids: seq<HabitId>, habitId: HabitId)
    requires habitId in ids
    ensures RemoveAll(ids, habitId) + [habitId] == ids <==> EndsWithOnly(ids, habitId)
  {
    if EndsWithOnly(ids, habitId) {
      var init := ids[..|ids| - 1];
      assert ids == init + [habitId];
      RemoveAllAppended(init, habitId);
    }
    if RemoveAll(ids, habitId) + [habitId] == ids {
      assert ids[..|ids| - 1] == RemoveAll(ids, habitId);
    }
  }

  /** When today's entry lists `habitId`, toggling twice gives back the whole
      state exactly when that occurrence was its only, last element. */
  lemma ToggleTwicePresentIdentity(data: HabitData, today: Day, habitId: HabitId, i: int)
    requires FirstAt(data.entries, today, i)
    requires habitId in data.entries[i].completedHabits
    ensures Toggle(Toggle(data, today, habitId), today, habitId) == data <==>
            EndsWithOnly(data.entries[i].completedHabits, habitId)
  {
    var twice := Toggle(Toggle(data, today, habitId), today, habitId);
    var before := data.entries[i].completedHabits;
    var back := RemoveAll(before, habitId) + [habitId];
    ToggleTwicePresent(data, today, habitId, i);
    RemoveAllThenAppend(before, habitId);
    assert twice.habits == data.habits;
    assert twice.entries == data.entries[i := DailyEntry(today, back)];
    assert twice == data <==> back == before by {
      if back == before {
        assert data.entries[i] == DailyEntry(today, back);
      }
      if twice == data {
        assert twice.entries[i] == DailyEntry(today, back);
      }
    }
  }

  /** Toggling twice gives back the whole state exactly when today already
      has an entry, and that entry either does not list `habitId` or lists it
      once, as its last element. */
  lemma ToggleTwiceIdentity(data: HabitData, today: Day, habitId: HabitId)
    ensures var before := EntryFor(data.entries, today).completedHabits;
            Toggle(Toggle(data, today, habitId), today, habitId) == data <==>
              HasEntry(data.entries, today) && (habitId !in before || EndsWithOnly(before, habitId))
  {
    match FindEntry(data.entries, today)
    case None =>
      ToggleTwiceMissing(data, today, habitId);
    case Some(i) =>
      assert EntryFor(data.entries, today) == data.entries[i];
      if habitId in data.entries[i].completedHabits {
        ToggleTwicePresentIdentity(data, today, habitId, i);
      } else {
        ToggleTwiceAbsent(data, today, habitId, i);
      }
  }

  /** Filtering a non-empty list: its first id is kept unless it is the
      filtered id, and the rest is filtered. */
  lemma RemoveAllUnfold(ids: seq<HabitId>, habitId: HabitId)
    requires |ids| > 0
    ensures RemoveAll(ids, habitId) == (if ids[0] == habitId then [] else [ids[0]]) + RemoveAll(ids[1..], habitId)
  {
  }

  /** Filtering distributes over concatenation; with `RemoveAllSingle` this
      says the kept ids stay in their original order. */
  lemma {:induction false} RemoveAllConcat(a: seq<HabitId>, b: seq<HabitId>, habitId: HabitId)
    ensures RemoveAll(a + b, habitId) == RemoveAll(a, habitId) + RemoveAll(b, habitId)
  {
    if |a| == 0 {
      assert a + b == b;
    } else {
      assert (a + b)[0] == a[0] && (a + b)[1..] == a[1..] + b;
      RemoveAllUnfold(a + b, habitId);
      RemoveAllUnfold(a, habitId);
      RemoveAllConcat(a[1..], b, habitId);
      Regroup(if a[0] == habitId then [] else [a[0]], RemoveAll(a[1..], habitId), RemoveAll(b, habitId),
              RemoveAll(a + b, habitId), RemoveAll(a, habitId), RemoveAll(a[1..] + b, habitId));
    }
  }

  /** The regrouping step of `RemoveAllConcat`, on plain lists. */
  lemma Regroup<T>(head: seq<T>, x: seq<T>, y: seq<T>, whole: seq<T>, left: seq<T>, tail: seq<T>)
    requires whole == head + tail && left == head + x && tail == x + y
    ensures whole == left + y
  {
  }

  /** Filtering a one-element list keeps it exactly when it is another id. */
  lemma RemoveAllSingle(x: HabitId, habitId: HabitId)
    ensures RemoveAll([x], habitId) == if x == habitId then [] else [x]
  {
    assert [x][1..] == [];
  }

  /** Dropping an id that was appended to a list without it gives the list back. */
  lemma {:induction false} RemoveAllAppended(ids: seq<HabitId>, habitId: HabitId)
    requires habitId !in ids
    ensures RemoveAll(ids + [habitId], habitId) == ids
  {
    var extended := ids + [habitId];
    if |ids| == 0 {
      assert extended == [habitId];
      assert RemoveAll(extended, habitId) == [] + RemoveAll([], habitId);
    } else {
      assert extended[0] == ids[0] != habitId;
      assert extended[1..] == ids[1..] + [habitId];
      RemoveAllAppended(ids[1..], habitId);
      assert RemoveAll(extended, habitId) == [ids[0]] + RemoveAll(extended[1..], habitId);
      assert ids == [ids[0]] + ids[1..];
    }
  }

  /** A toggle never introduces a second entry for a date. */
  lemma ToggleKeepsUniqueDates(data: HabitData, today: Day, habitId: HabitId)
    requires UniqueDates(data.entries)
    ensures UniqueDates(Toggle(data, today, habitId).entries)
  {
  }

  /** Toggling a registered habit keeps every completion list duplicate-free
      and within the registry. */
  lemma ToggleKeepsWellFormed(data: HabitData, today: Day, habitId: HabitId)
    requires WellFormed(data)
    requires habitId in HabitIds(data.habits)
    ensures WellFormed(Toggle(data, today, habitId))
  {
    var registry := HabitIds(data.habits);
    var r := Toggle(data, today, habitId);
    var updated: DailyEntry;
    var i: nat;
    match FindEntry(data.entries, today)
    case None =>
      i := |data.entries|;
      updated := DailyEntry(today, [habitId]);
      assert r.entries == data.entries + [updated];
    case Some(j) =>
      i := j;
      ToggleExisting(data, today, habitId, i);
      var before := data.entries[i].completedHabits;
      updated := DailyEntry(today, Flip(before, habitId));
      assert EntryWithin(data.entries[i], registry);
      if habitId in before {
        var after := RemoveAll(before, habitId);
        forall x | x in after ensures x in registry {
          assert multiset(after)[x] > 0;
        }
        DistinctRemoveAll(before, habitId);
      }
    assert EntryWithin(updated, registry);
    assert r.entries[i] == updated;
    forall k | 0 <= k < |r.entries|
      ensures EntryWithin(r.entries[k], registry)
    {
      if k != i {
        assert r.entries[k] == data.entries[k];
      }
    }
  }

  /** Dropping every occurrence of an id keeps a list duplicate-free. */
  lemma {:induction false} DistinctRemoveAll(ids: seq<HabitId>, habitId: HabitId)
    requires Distinct(ids)
    ensures Distinct(RemoveAll(ids, habitId))
  {
    if |ids| > 0 {
      DistinctRemoveAll(ids[1..], habitId);
      var rest := RemoveAll(ids[1..], habitId);
      if ids[0] != habitId {
        assert ids[0] !in ids[1..];
        assert multiset(ids[1..])[ids[0]] == 0;
        assert multiset(rest)[ids[0]] == 0;
        assert ids[0] !in rest;
      }
    }
  }
}

=== FILE: progress_chart.dfy ===
/** The derived values of the progress chart: the bar color class, the bar
    label, and the upper bound of the Y axis. */
module ProgressChart {
  import opened Wrappers
  import opened Types
  import History
  import Ledger
  import Decimal

  /** The four bar colors of the chart. */
  datatype Color = Emerald500 | Blue400 | Slate400 | Slate700

  /** Six hexadecimal digits after a '#'. */
  predicate IsHexColor(s: string)
  {
    |s| == 7 && s[0] == '#' &&
    forall k :: 1 <= k < 7 ==> '0' <= s[k] <= '9' || 'a' <= s[k] <= 'f'
  }

  /** The fill each color is drawn with: a CSS hex color. */
  function Fill(c: Color): (f: string)
    ensures IsHexColor(f)
  {
    match c
    case Emerald500 => "#10b981"
    case Blue400 => "#60a5fa"
    case Slate400 => "#94a3b8"
    case Slate700 => "#334155"
  }

  /** The color of a bar: exactly 100 is emerald; every other value from 50
      up, including values above 100, is blue; values strictly between 0 and
      50 are slate-400; zero and below are slate-700. */
  function CellColor(percentage: int): (c: Color)
    ensures c == Emerald500 <==> percentage == 100
    ensures c == Blue400 <==> percentage >= 50 && percentage != 100
    ensures c == Slate400 <==> 0 < percentage < 50
    ensures c == Slate700 <==> percentage <= 0
  {
    if percentage == 100 then Emerald500
    else if percentage >= 50 then Blue400
    else if percentage > 0 then Slate400
    else Slate700
  }

  /** Different colors are drawn with different fills. */
  lemma FillInjective(c: Color, d: Color)
    ensures Fill(c) == Fill(d) <==> c == d
  {
  }

  /** The fill `getCellColor` returns for a percentage. */
  function CellFill(percentage: int): (f: string)
    ensures f == "#10b981" <==> percentage == 100
    ensures f == "#60a5fa" <==> percentage >= 50 && percentage != 100
    ensures f == "#94a3b8" <==> 0 < percentage < 50
    ensures f == "#334155" <==> percentage <= 0
  {
    Fill(CellColor(percentage))
  }

  /** A record of the chart: the input record unchanged plus its bar label.
      The weekday label is not modelled. */
  datatype ChartPoint = ChartPoint(stat: History.DayStat, displayValue: string)

  /** The bar label: completed count, a slash, and the total. Its only slash
      is the one right after the completed count's text. */
  function DisplayValue(completed: int, total: int): (s: string)
    ensures |s| > |Decimal.IntToString(completed)| && s[|Decimal.IntToString(completed)|] == '/'
    ensures forall k :: 0 <= k < |s| && s[k] == '/' ==> k == |Decimal.IntToString(completed)|
  {
    Decimal.IntToString(completed) + "/" + Decimal.IntToString(total)
  }

  /** The index of the first '/' of a string. */
  function FindSlash(s: string): (r: Option<nat>)
    ensures r.Some? ==> r.value < |s| && s[r.value] == '/' && '/' !in s[..r.value]
    ensures r.None? ==> '/' !in s
  {
    if |s| == 0 then None
    else if s[0] == '/' then Some(0)
    else match FindSlash(s[1..])
      case None => None
      case Some(k) =>
        assert s[..k + 1] == [s[0]] + s[1..][..k];
        Some(k + 1)
  }

  /** Reads a bar label back into its two numbers. */
  function ParseDisplayValue(s: string): Option<(int, int)>
  {
    match FindSlash(s)
    case None => None
    case Some(k) =>
      match (Decimal.ParseInt(s[..k]), Decimal.ParseInt(s[k + 1..]))
      case (Some(c), Some(t)) => Some((c, t))
      case _ => None
  }

  /** A '/' with none before it is the one `FindSlash` finds. */
  lemma {:induction false} FindSlashAt(s: string, i: nat)
    requires i < |s| && s[i] == '/' && '/' !in s[..i]
    ensures FindSlash(s) == Some(i)
  {
  }

  /** A bar label determines the numbers it was made from. */
  lemma DisplayValueRoundTrip(completed: int, total: int)
    ensures ParseDisplayValue(DisplayValue(completed, total)) == Some((completed, total))
  {
    var left := Decimal.IntToString(completed);
    var right := Decimal.IntToString(total);
    var s := left + "/" + right;
    assert s[..|left|] == left;
    FindSlashAt(s, |left|);
    assert s[|left| + 1..] == right;
  }

  /** The chart record of one series record: the record unchanged, and a
      label that is the decimal text of its completed count, a slash and the
      decimal text of its total, and reads back as those two numbers. */
  function PointFor(d: History.DayStat): (p: ChartPoint)
    ensures p.stat == d
    ensures p.displayValue == Decimal.IntToString(d.completed) + "/" + Decimal.IntToString(d.total)
    ensures ParseDisplayValue(p.displayValue) == Some((d.completed, d.total))
  {
    DisplayValueRoundTrip(d.completed, d.total);
    ChartPoint(d, DisplayValue(d.completed, d.total))
  }

  /** The records of the chart: one per input record, in the same order, with
      the record's fields unchanged and a label that reads back as its
      completed count and total. */
  function ChartData(data: seq<History.DayStat>): (r: seq<ChartPoint>)
    ensures |r| == |data|
    ensures forall k :: 0 <= k < |r| ==> r[k].stat == data[k]
    ensures forall k :: 0 <= k < |r| ==>
              r[k].displayValue == Decimal.IntToString(data[k].completed) + "/" + Decimal.IntToString(data[k].total)
    ensures forall k :: 0 <= k < |r| ==>
              ParseDisplayValue(r[k].displayValue) == Some((data[k].completed, data[k].total))
  {
    seq(|data|, k requires 0 <= k < |data| => PointFor(data[k]))
  }

  /** The upper bound of the Y axis: the first record's total, falling back
      to 3 when there is no record or that total is zero. It is never zero. */
  function YAxisMax(data: seq<History.DayStat>): (m: int)
    ensures m != 0
    ensures |data| > 0 && data[0].total != 0 ==> m == data[0].total
    ensures |data| == 0 || data[0].total == 0 ==> m == 3
  {
    if |data| > 0 && data[0].total != 0 then data[0].total else 3
  }

  /** Fed the completion series, the Y axis reaches the registry size, or 3
      when the registry is empty or no day is requested. */
  lemma YAxisOfHistory(data: HabitData, today: Day, days: int)
    ensures YAxisMax(History.CompletionHistory(data, today, days)) ==
            if days > 0 && |data.habits| > 0 then |data.habits| else 3
  {
  }

  /** Bars of the series: a day on which every registered habit is done once
      is emerald and a day with nothing done is slate-700. On a well-formed
      ledger with fewer than 200 habits an emerald bar means every habit is
      done. */
  lemma HistoryColors(data: HabitData, today: Day, days: int)
    ensures forall s :: s in History.CompletionHistory(data, today, days) ==>
              && (s.completed == s.total > 0 ==> CellColor(s.percentage) == Emerald500)
              && (s.completed == 0 ==> CellColor(s.percentage) == Slate700)
    ensures Ledger.WellFormed(data) && |data.habits| < 200 ==>
              forall s :: s in History.CompletionHistory(data, today, days) ==>
                (CellColor(s.percentage) == Emerald500 <==> s.completed == s.total > 0)
  {
    var r := History.CompletionHistory(data, today, days);
    if Ledger.WellFormed(data) {
      History.HistoryBounded(data, today, days);
    }
    forall k | 0 <= k < |r|
      ensures r[k].completed == r[k].total > 0 ==> r[k].percentage == 100
      ensures r[k].completed == 0 ==> r[k].percentage <= 0
      ensures Ledger.WellFormed(data) && |data.habits| < 200 && r[k].percentage == 100 ==>
                r[k].completed == r[k].total > 0
    {
      var s := r[k];
      if s.total > 0 {
        if s.completed == s.total {
          History.PercentIs(s.completed, s.total, s.percentage, 100);
        }
        if s.completed == 0 {
          History.PercentIs(s.completed, s.total, s.percentage, 0);
        }
        if Ledger.WellFormed(data) && |data.habits| < 200 && s.percentage == 100 {
          assert s.total * (2 * s.percentage - 1) == 199 * s.total;
          assert s.completed <= s.total;
        }
      }
    }
  }

  /** From 200 habits on, one missing habit in 200 still rounds to 100 and
      shows an emerald bar. */
  lemma OneMissingCanRoundToFull()
    ensures History.RoundPercent(199, 200) == 100
    ensures CellColor(History.RoundPercent(199, 200)) == Emerald500
  {
  }
}

=== FILE: text.dfy ===
/** `String.prototype.trim`: strips the ECMAScript white space and line
    terminator code points from both ends of a string. */
module Text {

  /** The ECMAScript WhiteSpace code points (tab, vertical tab, form feed,
      space, no-break space, byte-order mark and the other space separators)
      and the LineTerminator code points. */
  predicate IsWhitespace(ch: char)
  {
    ch in WhitespaceChars
  }

  const WhitespaceChars: set<char> := {
    '\t', '\U{000B}', '\U{000C}', ' ', '\U{00A0}', '\U{FEFF}', '\U{1680}',
    '\U{2000}', '\U{2001}', '\U{2002}', '\U{2003}', '\U{2004}', '\U{2005}',
    '\U{2006}', '\U{2007}', '\U{2008}', '\U{2009}', '\U{200A}',
    '\U{202F}', '\U{205F}', '\U{3000}',
    '\n', '\r', '\U{2028}', '\U{2029}'
  }

  /** Every character of `s` in `lo..hi` is white space. */
  predicate WhitespaceBetween(s: string, lo: int, hi: int)
  {
    forall k :: lo <= k < hi && 0 <= k < |s| ==> IsWhitespace(s[k])
  }

  predicate AllWhitespace(s: string)
  {
    WhitespaceBetween(s, 0, |s|)
  }

  /** Neither end of the string is white space. */
  predicate IsTrimmed(s: string)
  {
    |s| > 0 ==> !IsWhitespace(s[0]) && !IsWhitespace(s[|s| - 1])
  }

  /** The first index from `i` on that is not white space, or `|s|`. */
  function SkipLeading(s: string, i: nat): (start: nat)
    requires i <= |s|
    ensures i <= start <= |s| && WhitespaceBetween(s, i, start)
    ensures start < |s| ==> !IsWhitespace(s[start])
    decreases |s| - i
  {
    if i == |s| || !IsWhitespace(s[i]) then i else SkipLeading(s, i + 1)
  }

  /** The end of `s[lo..hi]` once its trailing white space is dropped. */
  function SkipTrailing(s: string, lo: nat, hi: nat): (end: nat)
    requires lo <= hi <= |s|
    ensures lo <= end <= hi && WhitespaceBetween(s, end, hi)
    ensures end > lo ==> !IsWhitespace(s[end - 1])
    decreases hi
  {
    if hi == lo || !IsWhitespace(s[hi - 1]) then hi else SkipTrailing(s, lo, hi - 1)
  }

  /** `s` without its leading and trailing white space: a slice of `s` with
      only white space cut off on either side and none left at either end.
      It is empty exactly when `s` is all white space. */
  function Trim(s: string): (r: string)
    ensures IsTrimmed(r)
    ensures exists i :: 0 <= i <= |s| - |r| && s[i..i + |r|] == r
                        && WhitespaceBetween(s, 0, i) && WhitespaceBetween(s, i + |r|, |s|)
    ensures |r| == 0 <==> AllWhitespace(s)
  {
    var start := SkipLeading(s, 0);
    var end := SkipTrailing(s, start, |s|);
    var r := s[start..end];
    assert s[start..start + |r|] == r;
    assert |r| > 0 ==> r[0] == s[start] && r[|r| - 1] == s[end - 1];
    r
  }

  /** Trimming twice is trimming once, and a trimmed string is its own trim. */
  lemma TrimIdempotent(s: string)
    ensures IsTrimmed(s) ==> Trim(s) == s
    ensures Trim(Trim(s)) == Trim(s)
  {
  }
}

=== FILE: types.dfy ===
/** The records shared by the habit ledger, the history series and the chart. */
module Types {

  /** A calendar date, as a day number; consecutive dates differ by one. */
  type Day = int

  type HabitId = string

  /** A habit definition of the registry. */
  datatype Habit = Habit(id: HabitId, name: string, emoji: string)

  /** The completions recorded for one date. `completedHabits` is an ordered
      list, not a set: the same id may occur more than once. */
  datatype DailyEntry = DailyEntry(date: Day, completedHabits: seq<HabitId>)

  /** The whole persisted state: the registry and the ledger, both in order. */
  datatype HabitData = HabitData(habits: seq<Habit>, entries: seq<DailyEntry>)

  /** No element occurs twice. */
  predicate Distinct<T(==)>(s: seq<T>)
  {
    forall i, j :: 0 <= i < j < |s| ==> s[i] != s[j]
  }

  /** The ids of a registry, in registry order. */
  function HabitIds(habits: seq<Habit>): (ids: seq<HabitId>)
    ensures |ids| == |habits|
    ensures forall k :: 0 <= k < |habits| ==> ids[k] == habits[k].id
  {
    if |habits| == 0 then [] else [habits[0].id] + HabitIds(habits[1..])
  }

  /** The seed registry used when nothing is persisted yet: exactly three
      habits with distinct, non-empty ids and non-empty names and emojis. */
  function DefaultHabits(): (r: seq<Habit>)
    ensures HabitIds(r) == ["development", "dsa-practice", "walking"]
    ensures Distinct(HabitIds(r))
    ensures forall k :: 0 <= k < |r| ==> r[k].id != "" && r[k].name != "" && r[k].emoji != ""
  {
    [ Habit("development", "Development", "\U{1F4BB}"),
      Habit("dsa-practice", "DSA Practice", "\U{1F9EE}"),
      Habit("walking", "Walking", "\U{1F6B6}") ]
  }
}

=== FILE: wrappers.dfy ===
/** The optional-value type shared by the lookups of the model. */
module Wrappers {

  /** Either no value, or one value. */
  datatype Option<+T> = None | Some(value: T)
}
